=== FILE: README.md ===
# Property manager API: authentication and owned properties

A model of the server side of a small property-management web application. Users sign up and
log in. Logged-in users register rental properties and list their own. Two tRPC routers do the
work over two tables, `user` and `property`:

- `authRouter` (`server/routers/auth.router.ts`) has two procedures:
  - `signUp` validates `{name, email, password}` and refuses an email that is already
    registered. It stores a bcrypt hash of the password and returns `{id, name, email}`.
  - `login` looks the user up by email and compares the password with the stored hash. It then
    signs a JSON Web Token carrying `{id, name, email}` that expires seven days later.
- `propertyRouter` (`server/routers/property.router.ts`) has two procedures:
  - `create` takes the token from the `Authorization` header and verifies it. It refuses a
    second property at the same location for the same owner and inserts the property, owned by
    the token's user.
  - `getUserProperties` returns the rows of the token's user.

The model is sequential Dafny:

- The database is a class `Store.Db`. It holds both tables as sequences, plus the two
  autoincrement counters.
- `signUp` and `create` are methods that change it. `login`, `getUserProperties`, the input
  schemas and the header parsing are functions.
- Errors are values: `Trpc.TrpcError` holds a code (`BAD_REQUEST`, `UNAUTHORIZED`, `CONFLICT`)
  and a message.
- Three library calls get concrete stand-ins, and the properties the routers rely on are proved
  about them:
  - `bcrypt`: `Bcrypt.Hash` and `Bcrypt.Compare`. A hash has bcrypt's 60-character layout
    (`$2b$12$`, then the salt, then the digest). The salt is a parameter, since it is random.
  - `jsonwebtoken`: `Jwt.Sign` and `Jwt.Verify`. A token is a set of dot-separated fields with
    no spaces, ending with a keyed checksum, in the spirit of RFC 7515's compact form. `Verify`
    follows RFC 7519 section 4.1.4: it refuses a token once `now >= exp`.
  - zod's `email()` check: `Zod.IsEmail`, written after the email pattern of zod 3.23 and later (zod 4's `email()` uses the same).
- The clock is a parameter `now`, in seconds. The signing secret is a parameter `secret`.

One reply differs from what the code appears to intend. `create` builds a `CONFLICT` for a
second property at the same owner and location, but it throws it inside its own `try`, and the
`catch` at `server/routers/property.router.ts:70-75` rethrows every error as `UNAUTHORIZED`,
with the caught value as its message. The model follows the code: `PropertyRouter.Create` never
answers `CONFLICT`; its error carries `Wrapped(Raised(DuplicateLocation))` instead.

## Model

| member | source | states |
|---|---|---|
| `Text.Split` | server/routers/property.router.ts:21 | `header.split(" ")` as JavaScript does it: at least one field, and no field contains the separator |
| `Text.SplitJoin` | server/routers/property.router.ts:21 | splitting a join of separator-free fields gives the fields back |
| `Text.JoinSplit` | server/routers/property.router.ts:21 | joining the fields of a split gives the string back |
| `Text.UnescapeEscape` | server/routers/auth.router.ts:80-88 | the encoding of a name or email inside a token is decoded back to the same string |
| `Text.EscapeUnescape` | server/routers/property.router.ts:31-34 | a field that decodes is exactly the encoding of what it decodes to |
| `Decimal.ParseNatToString` | server/routers/auth.router.ts:80-88 | the numeric claims `id`, `iat`, `exp` read back to the numbers written |
| `Decimal.NatToStringOfParse` | server/routers/property.router.ts:31-34 | a numeric field that parses is the canonical decimal of its value |
| `Bcrypt.Hash` | server/routers/auth.router.ts:32 | `bcrypt.hash(password, SALT_ROUNDS)`: 60 characters, opening with version and cost 12, then the drawn salt |
| `Bcrypt.Compare` | server/routers/auth.router.ts:70 | `bcrypt.compare` accepts only a string laid out as a bcrypt hash; `Bcrypt.CompareHash` states that it accepts a password against its own hash |
| `Bcrypt.CompareHash` | server/routers/auth.router.ts:70 | `bcrypt.compare` accepts a password against its own hash, whatever the salt |
| `Bcrypt.HashIsNotPlaintext` | server/routers/auth.router.ts:32-38 | the stored hash differs from every password that is not exactly 60 characters long |
| `Jwt.Verify` | server/routers/property.router.ts:31-34 | `jwt.verify` succeeds only before the `exp` claim |
| `Jwt.VerifySign` | server/routers/auth.router.ts:80-88 | a token the server signed verifies to its own payload exactly while `now < exp`; afterwards it fails as expired |
| `Jwt.VerifiedIsSigned` | server/routers/property.router.ts:31-35 | every token that verifies is exactly the server's signature of the payload it yields, so `decoded.id` comes from a token the server issued |
| `Jwt.Sign` | server/routers/auth.router.ts:80-88 | `jwt.sign`: a signed token is non-empty and contains no space, so it survives a `Bearer` header; `Jwt.VerifySign` states what it verifies to |
| `Zod.IsEmail` | server/routers/auth.router.ts:15 | `z.string().email()`: an accepted address is `local@domain` with one `@` and no space |
| `Store.FindUserByEmail` | server/routers/auth.router.ts:22 | `findUnique` by email: none exactly when no user has that email, otherwise a stored user with that email |
| `Store.FindProperty` | server/routers/property.router.ts:37-42 | `findFirst` by location and owner: none exactly when the owner has no property at that location |
| `Store.PropertiesOf` | server/routers/property.router.ts:92-96 | `findMany` by owner: all and only the rows of that owner |
| `Store.FindUserUnique` | server/routers/auth.router.ts:59 | with unique emails, the lookup finds each stored user by its email |
| `Store.FindUserAppended` | server/routers/auth.router.ts:34-40 | a user inserted under a fresh email is the one the lookup then finds |
| `Store.Db.CreateUser` | server/routers/auth.router.ts:34-40 | `prisma.user.create`, given an email not yet stored (the unique constraint), appends one row with the next id, keeps the store's invariant (increasing ids, unique emails) and changes nothing else |
| `Store.Db.CreateProperty` | server/routers/property.router.ts:56-64 | `prisma.property.create` appends one row with the next id and changes nothing else |
| `AuthRouter.SignUpIssues` | server/routers/auth.router.ts:13-17 | a `signUp` input is accepted if and only if the name has at least 3 characters, the email is well formed and the password has 8 to 30 characters; each issue names one of those fields |
| `AuthRouter.LoginIssues` | server/routers/auth.router.ts:51-54 | a `login` input is accepted if and only if the email is well formed; the password has no length bound |
| `AuthRouter.NewUser` | server/routers/auth.router.ts:32-40 | the inserted row keeps name and email, stores a bcrypt hash that `compare` accepts for the password, and never stores a password that passed validation as plaintext |
| `AuthRouter.SignUp` | server/routers/auth.router.ts:19-47 | rejects invalid input with `BAD_REQUEST` and a taken email with `CONFLICT`, leaving the user table unchanged; otherwise appends exactly one user, hashed, returns only `{id, name, email}`; keeps emails unique and passwords hashed; never touches properties |
| `AuthRouter.Login` | server/routers/auth.router.ts:56-98 | fails only with the validation error or the one credentials error; a success answers for the email asked about; reads the user table without changing it |
| `AuthRouter.LoginFailuresIdentical` | server/routers/auth.router.ts:61-78 | an unknown email and a wrong password give the identical `UNAUTHORIZED` error |
| `AuthRouter.LoginSucceedsIff` | server/routers/auth.router.ts:59-78 | with unique emails, `login` succeeds if and only if the email is well formed and its user's stored hash accepts the password |
| `AuthRouter.LoginToken` | server/routers/auth.router.ts:80-97 | a successful `login` returns the matched user's `{id, name, email}`, and a header-safe token that verifies to those fields, issued now, until exactly now + 7 days |
| `AuthRouter.SignUpThenLogin` | server/routers/auth.router.ts:32-70 | after a successful `signUp(name, email, password)`, `login(email, password)` succeeds as the new user |
| `PropertyRouter.BearerToken` | server/routers/property.router.ts:21-28 | the token is a non-empty, space-free second field of the header, or there is none |
| `PropertyRouter.BearerRoundTrip` | server/routers/property.router.ts:21 | `scheme + " " + token` yields `token` for any scheme word, `Bearer` included |
| `PropertyRouter.BearerMissing` | server/routers/property.router.ts:21-28 | a header with no space, or with nothing after its only space, yields no token |
| `PropertyRouter.CreateIssues` | server/routers/property.router.ts:12-17 | a `create` input is accepted if and only if name and location are non-empty and units is at least 1; `additionalInfo` is free |
| `PropertyRouter.Create` | server/routers/property.router.ts:19-76 | invalid input gives `BAD_REQUEST`; no token gives "No token provided."; a failed verification or an existing (owner, location) gives `UNAUTHORIZED` wrapping the caught error, never `CONFLICT`; all these leave the store unchanged; otherwise exactly one property is appended, owned by the verified token's id, with "Property created successfully!"; (owner, location) uniqueness is preserved; the user table is never touched |
| `PropertyRouter.GetUserProperties` | server/routers/property.router.ts:78-105 | fails exactly when the token is missing ("No token provided.") or does not verify ("Invalid token."); otherwise returns all and only the properties whose owner is the token's id |
| `PropertyRouter.AppendKeepsUnique` | server/routers/property.router.ts:37-64 | inserting only where the owner has no property at that location keeps (owner, location) pairs unique |
| `PropertyRouter.OtherOwnerSameLocation` | server/routers/property.router.ts:37-42 | a location one owner uses is still open to another owner |
| `Session.HeaderCarries` | client/src/utils/trpc.ts:10-13 | the `Bearer <token>` header the client builds gives the server back the token |
| `Session.LoginThenList` | server/routers/property.router.ts:79-98 | the token from `login`, sent as a `Bearer` header, lists exactly the user's own properties for seven days and gets "Invalid token." afterwards |
| `Session.Enrol` | server/routers/auth.router.ts:19-97 | `signUp` with a fresh email then `login` with the same credentials: one user added, a session whose token verifies to the new identity |
| `Session.ExampleEmail` | server/routers/auth.router.ts:15 | every address `c@x.com` with a lower-case letter `c`, such as the walkthrough's `a@x.com` and `b@x.com`, passes the email check |
| `Session.ExampleSignUps` | server/routers/auth.router.ts:13-17 | the walkthrough's sign-up forms are valid |
| `Session.CreateFresh` | server/routers/property.router.ts:37-69 | a token that verifies now to the owner, whenever it was issued, and an unused (owner, location) pair always give a successful `create` |
| `Session.SameLocationTwice` | server/routers/property.router.ts:44-54 | the second `create` at the same location by the same owner is answered `UNAUTHORIZED`, and the store keeps one row |
| `Session.Walkthrough` | server/routers/property.router.ts:37-75 | the worked example: Alice signs up (id 1), logs in, creates "Flat" at "Loc1", is refused a second one there as `UNAUTHORIZED`; Bob (id 2) then creates at "Loc1" successfully |

## Left out

- bcrypt's Blowfish rounds and jsonwebtoken's HMAC-SHA-256 are not modelled. A keyed 32-bit checksum (`Text.Checksum`) stands in for both. So the model proves nothing about collision resistance: a wrong password may, in the model as in reality, match a hash by collision. `AuthRouter.LoginFailuresIdentical` therefore defines "wrong password" as one that `Compare` rejects.
- Bcrypt.Compare: bcrypt uses only the first 72 UTF-8 bytes of a password, and the model compares the whole string. The 30-character cap of `signUp` does not keep passwords under 72 bytes (30 characters of three UTF-8 bytes each are 90 bytes), so for such a password the real `bcrypt.compare` (server/routers/auth.router.ts:70) also accepts any login password that shares its first 72 bytes. The "only if" half of `AuthRouter.LoginSucceedsIff` holds for the stand-in, not for bcrypt on such passwords; the model has no byte encoding of strings.
- The real token is base64url-encoded JSON with a header segment. The model keeps only what the routers rely on: no spaces, dot-separated fields, and a signature over the rest. Other `jwt.verify` failures (`nbf`, algorithm mismatch) are not modelled. Its errors are reduced to `Malformed`, `InvalidSignature` and `Expired`.
- Jwt.Verify: `jwt.verify` checks expiry only when the token carries `exp`, so a token signed with the secret but without `exp` verifies at every time. The model's `Verify` needs all five payload fields and answers `Malformed` for such a token. The server always signs with `expiresIn: "7d"` (server/routers/auth.router.ts:87), and only a holder of the secret can make a token without `exp`.
- `Zod.IsEmail` follows the email pattern of zod 3.23 and later, and of zod 4: `'` is allowed in the local part and `,` is not. Earlier zod 3.22 releases used a character class that admits `,` and refuses `'`. The zod version the project pins is not part of this model. Zod's `min`/`max` count UTF-16 code units; the model counts characters.
- SignUpIssues / LoginIssues: the issue texts ("String must contain at least 3 character(s)", "Invalid email", ...) are zod 3's default messages. The client code calls `z.email(...)`, which only zod 4 has, and zod 4's defaults read differently ("Too small: expected string to have >=3 characters", "Invalid email address"). The model fixes zod 3's texts; which conditions are reported, and on which field, does not depend on the version.
- Input values of the wrong JavaScript type (a number for `name`, say) are not modelled. The inputs are typed records.
- `units` is a JavaScript number, and `z.number().min(1)` accepts non-integers such as 1.5. The model uses an `int`.
- The database schema is not part of this model. It is unknown whether the store declares a unique constraint on (userId, location), or a foreign key from `property.userId` to `user.id`. The model assumes both tables use autoincrement ids starting at 1, and a unique constraint on `user.email`, which `findUnique({ where: { email } })` requires. Store failures are not modelled. In the source, a failure inside `create`'s `try` would also come back as `UNAUTHORIZED`, and one inside `getUserProperties`'s would come back as "Invalid token.".
- Concurrency is not modelled. The check-then-insert of `signUp` (server/routers/auth.router.ts:22-40) and of `create` (server/routers/property.router.ts:37-64) is not atomic under concurrent requests. The model runs one request at a time.
- `Create` models the message of the rewrapped error as the caught value (`Wrapped`). It does not model the string tRPC makes of that value.
- Express, tRPC wiring and client code are not part of this model: server/index.ts, server/createContext.ts, client/src/utils/trpc.ts (beyond the `Bearer` header it builds), the React pages and components, and the Google Maps image URL.
- `process.env.JWT_SECRET` is the `secret` parameter. The clock `Date.now()` is the `now` parameter, in whole seconds. `bcrypt`'s random salt is the `salt` parameter.

=== FILE: auth_router.dfy ===
/**
 * `authRouter`: the `signUp` and `login` procedures. Input validation by zod
 * runs first, as tRPC parses the input before the resolver runs.
 */
module AuthRouter {
  import opened Wrappers
  import opened Records
  import opened Store
  import opened Trpc
  import opened Jwt
  import Bcrypt
  import Zod

  datatype SignUpInput = SignUpInput(name: string, email: string, password: string)

  datatype LoginInput = LoginInput(email: string, password: string)

  /** What `login` returns: the signed token and the public fields of the user. */
  datatype LoginOk = LoginOk(token: string, user: Identity)

  /** The issues zod reports for a `signUp` input: name of 3 or more, an email, a password of 8 to 30. */
  function SignUpIssues(input: SignUpInput): (r: seq<Issue>)
    ensures r == [] <==> |input.name| >= 3 && Zod.IsEmail(input.email) && 8 <= |input.password| <= 30
    ensures forall i :: 0 <= i < |r| ==> r[i].path in [["name"], ["email"], ["password"]]
  {
    (if |input.name| < 3 then [Issue(["name"], "String must contain at least 3 character(s)")] else [])
    + (if !Zod.IsEmail(input.email) then [Issue(["email"], "Invalid email")] else [])
    + (if |input.password| < 8 then [Issue(["password"], "String must contain at least 8 character(s)")]
       else if |input.password| > 30 then [Issue(["password"], "String must contain at most 30 character(s)")]
       else [])
  }

  /** The issues zod reports for a `login` input: only the email is checked, the password is any string. */
  function LoginIssues(input: LoginInput): (r: seq<Issue>)
    ensures r == [] <==> Zod.IsEmail(input.email)
  {
    if !Zod.IsEmail(input.email) then [Issue(["email"], "Invalid email")] else []
  }

  const EmailInUse: TrpcError := TrpcError(Conflict, Issues([Issue(["email"], "Email already in use")]))

  /** The one error both failed-credential branches of `login` throw. */
  const InvalidCredentials: TrpcError :=
    TrpcError(Unauthorized, Issues([Issue(["email/password"], "Invalid email or password")]))

  /** The row a successful `signUp` inserts: the hash of the password, never the password. */
  function NewUser(id: nat, input: SignUpInput, salt: Bcrypt.Salt): (u: User)
    ensures u.id == id && u.name == input.name && u.email == input.email
    ensures Bcrypt.Compare(input.password, u.password) && Bcrypt.IsHash(u.password)
    ensures |input.password| <= 30 ==> u.password != input.password
  {
    Bcrypt.CompareHash(input.password, salt);
    User(id, input.name, input.email, Bcrypt.Hash(input.password, salt))
  }

  /** `signUp`: validate, refuse a taken email, hash the password and insert one user. */
  method SignUp(db: Db, input: SignUpInput, salt: Bcrypt.Salt) returns (r: Result<Identity, TrpcError>)
    requires db.Valid()
    modifies db
    ensures db.Valid()
    ensures db.properties == old(db.properties) && db.nextPropertyId == old(db.nextPropertyId)
    ensures SignUpIssues(input) != [] ==> r == Failure(TrpcError(BadRequest, Issues(SignUpIssues(input))))
    ensures SignUpIssues(input) == [] && EmailTaken(old(db.users), input.email) ==> r == Failure(EmailInUse)
    ensures r.Success? <==> SignUpIssues(input) == [] && !EmailTaken(old(db.users), input.email)
    ensures r.Failure? ==> db.users == old(db.users) && db.nextUserId == old(db.nextUserId)
    ensures r.Success? ==>
      r.value == Identity(old(db.nextUserId), input.name, input.email)
      && db.users == old(db.users) + [NewUser(old(db.nextUserId), input, salt)]
      && db.nextUserId == old(db.nextUserId) + 1
    ensures PasswordsHashed(old(db.users)) ==> PasswordsHashed(db.users)
  {
    var issues := SignUpIssues(input);
    if issues != [] {
      return Failure(TrpcError(BadRequest, Issues(issues)));
    }
    var existingUser := FindUserByEmail(db.users, input.email);
    if existingUser.Some? {
      return Failure(EmailInUse);
    }
    var hashedPassword := Bcrypt.Hash(input.password, salt);
    Bcrypt.CompareHash(input.password, salt);
    var user := db.CreateUser(input.name, input.email, hashedPassword);
    r := Success(IdentityOf(user));
  }

  /** `login`: validate, look the user up by email, compare the password, sign a 7-day token. */
  function Login(users: seq<User>, secret: string, input: LoginInput, now: nat): (r: Result<LoginOk, TrpcError>)
    ensures r.Failure? ==> r.error == InvalidCredentials || r.error == TrpcError(BadRequest, Issues(LoginIssues(input)))
    ensures r.Success? ==> r.value.user.email == input.email
  {
    var issues := LoginIssues(input);
    if issues != [] then Failure(TrpcError(BadRequest, Issues(issues)))
    else match FindUserByEmail(users, input.email)
      case None => Failure(InvalidCredentials)
      case Some(user) =>
        if !Bcrypt.Compare(input.password, user.password) then Failure(InvalidCredentials)
        else
          var claims := IdentityOf(user);
          Success(LoginOk(Sign(secret, Payload(claims, now, now + SevenDays)), claims))
  }

  /** An unknown email and a wrong password are answered with the very same error. */
  lemma LoginFailuresIdentical(users: seq<User>, secret: string, unknown: LoginInput, wrong: LoginInput, now: nat)
    requires Zod.IsEmail(unknown.email) && !EmailTaken(users, unknown.email)
    requires Zod.IsEmail(wrong.email) && EmailsUnique(users)
    requires exists i :: 0 <= i < |users| && users[i].email == wrong.email && !Bcrypt.Compare(wrong.password, users[i].password)
    ensures Login(users, secret, unknown, now) == Login(users, secret, wrong, now) == Failure(InvalidCredentials)
  {
    var i :| 0 <= i < |users| && users[i].email == wrong.email && !Bcrypt.Compare(wrong.password, users[i].password);
    FindUserUnique(users, i);
  }

  /** Under the email constraint, `login` succeeds exactly for a well-formed email whose user's hash matches the password. */
  lemma LoginSucceedsIff(users: seq<User>, secret: string, input: LoginInput, now: nat)
    requires EmailsUnique(users)
    ensures Login(users, secret, input, now).Success? <==>
      Zod.IsEmail(input.email)
      && exists i :: 0 <= i < |users| && users[i].email == input.email && Bcrypt.Compare(input.password, users[i].password)
  {
    if exists i :: 0 <= i < |users| && users[i].email == input.email && Bcrypt.Compare(input.password, users[i].password) {
      var i :| 0 <= i < |users| && users[i].email == input.email && Bcrypt.Compare(input.password, users[i].password);
      FindUserUnique(users, i);
    }
  }

  /**
   * A successful `login` answers with the matched user's public fields, and
   * its token verifies to those fields, issued now, for exactly seven days.
   */
  lemma LoginToken(users: seq<User>, secret: string, input: LoginInput, now: nat)
    requires Login(users, secret, input, now).Success?
    ensures var ok := Login(users, secret, input, now).value;
      (exists i :: 0 <= i < |users| && users[i].email == input.email
                   && Bcrypt.Compare(input.password, users[i].password) && ok.user == IdentityOf(users[i]))
      && ok.token != [] && ' ' !in ok.token
      && forall t: nat :: Verify(secret, ok.token, t)
           == if t < now + SevenDays then Success(Payload(ok.user, now, now + SevenDays)) else Failure(Expired)
  {
    var ok := Login(users, secret, input, now).value;
    var user := FindUserByEmail(users, input.email).value;
    var i :| 0 <= i < |users| && users[i] == user;
    var p := Payload(ok.user, now, now + SevenDays);
    forall t: nat ensures Verify(secret, ok.token, t) == if t < p.exp then Success(p) else Failure(Expired) {
      VerifySign(secret, p, t);
    }
  }

  /** After `signUp(name, email, password)` succeeds, `login(email, password)` succeeds as the new user. */
  lemma SignUpThenLogin(users: seq<User>, id: nat, input: SignUpInput, salt: Bcrypt.Salt, secret: string, now: nat)
    requires SignUpIssues(input) == [] && !EmailTaken(users, input.email)
    ensures var me := Identity(id, input.name, input.email);
      Login(users + [NewUser(id, input, salt)], secret, LoginInput(input.email, input.password), now)
      == Success(LoginOk(Sign(secret, Payload(me, now, now + SevenDays)), me))
  {
    FindUserAppended(users, NewUser(id, input, salt));
  }
}

=== FILE: bcrypt.dfy ===
/**
 * The password hashing the server delegates to bcrypt. The Blowfish rounds
 * are replaced by `Text.Checksum`; what is kept is the layout of a bcrypt
 * string (`$2b$`, the cost, a 22-character salt, a 31-character digest: 60
 * characters in all) and the way `compare` re-hashes a candidate with the salt
 * read back from the stored hash.
 */
module Bcrypt {
  import Text
  import Decimal

  /** `SALT_ROUNDS`, the cost factor passed to `bcrypt.hash`. */
  const SaltRounds: nat := 12
  /** Version tag and cost as they open every hash made with `SaltRounds`. */
  const Prefix: string := "$2b$12$"
  const SaltLength: nat := 22
  const DigestLength: nat := 31
  const HashLength: nat := 60

  /** The random salt bcrypt draws for each hash; randomness is a parameter of the model. */
  type Salt = s: string | |s| == SaltLength witness "......................"

  /** `s` cut or left-padded with zeros to exactly `w` characters. */
  function Fit(s: string, w: nat): (r: string)
    ensures |r| == w
  {
    if |s| >= w then s[..w] else seq(w - |s|, _ => '0') + s
  }

  /** `bcrypt.hash(password, SALT_ROUNDS)` with the salt it would draw. */
  function Hash(password: string, salt: Salt): (h: string)
    ensures |h| == HashLength
    ensures h[..|Prefix|] == Prefix && h[|Prefix|..|Prefix| + SaltLength] == salt
  {
    var h := Prefix + salt + Fit(Decimal.NatToString(Text.Checksum(salt + password)), DigestLength);
    assert h[..|Prefix|] == Prefix;
    assert h[|Prefix|..|Prefix| + SaltLength] == salt;
    h
  }

  /** The salt stored inside a hash string. */
  function SaltOf(h: string): Salt
    requires |h| == HashLength
  {
    h[|Prefix|..|Prefix| + SaltLength]
  }

  /**
   * `bcrypt.compare(password, hash)`: re-hash with the stored salt and
   * compare. Only a string laid out as a bcrypt hash can match.
   */
  function Compare(password: string, h: string): (r: bool)
    ensures r ==> IsHash(h)
  {
    |h| == HashLength && h == Hash(password, SaltOf(h))
  }

  /** What a stored password looks like when it came out of `Hash`. */
  predicate IsHash(h: string)
  {
    |h| == HashLength && h[..|Prefix|] == Prefix
  }

  /** A password always matches its own hash, whatever salt was drawn. */
  lemma CompareHash(password: string, salt: Salt)
    ensures Compare(password, Hash(password, salt))
    ensures IsHash(Hash(password, salt))
  {
  }

  /** The stored hash is never the plaintext unless the plaintext is exactly 60 characters long. */
  lemma HashIsNotPlaintext(password: string, salt: Salt)
    requires |password| != HashLength
    ensures Hash(password, salt) != password
  {
  }
}

=== FILE: decimal.dfy ===
/** Decimal notation for natural numbers, as used for the numeric claims of a token. */
module Decimal {
  import opened Wrappers

  predicate IsDigit(c: char) { '0' <= c <= '9' }

  function DigitChar(d: nat): (c: char)
    requires d < 10
    ensures IsDigit(c) && (d == 0 <==> c == '0')
  {
    ('0' as int + d) as char
  }

  function DigitValue(c: char): (d: nat)
    requires IsDigit(c)
    ensures d < 10 && DigitChar(d) == c
  {
    c as int - '0' as int
  }

  predicate AllDigits(s: string) { forall i :: 0 <= i < |s| ==> IsDigit(s[i]) }

  /** Non-empty, only digits, and no leading zero unless the number is zero itself. */
  predicate Canonical(s: string)
  {
    |s| >= 1 && AllDigits(s) && (s[0] == '0' ==> |s| == 1)
  }

  function NatToString(n: nat): (r: string)
    ensures Canonical(r)
    ensures n >= 1 ==> r[0] != '0'
    decreases n
  {
    if n < 10 then [DigitChar(n)] else NatToString(n / 10) + [DigitChar(n % 10)]
  }

  /** The number a string of digits denotes, most significant digit first. */
  function Value(s: string): nat
    requires AllDigits(s)
    decreases |s|
  {
    if s == [] then 0 else Value(s[..|s| - 1]) * 10 + DigitValue(s[|s| - 1])
  }

  function ParseNat(s: string): (r: Option<nat>)
    ensures r.Some? <==> Canonical(s)
  {
    if Canonical(s) then Some(Value(s)) else None
  }

  lemma {:induction false} ValueOfNatToString(n: nat)
    ensures Value(NatToString(n)) == n
    decreases n
  {
    if n >= 10 {
      ValueOfNatToString(n / 10);
      var s := NatToString(n);
      assert s[..|s| - 1] == NatToString(n / 10);
    }
  }

  lemma {:induction false} ValuePositive(s: string)
    requires AllDigits(s) && |s| >= 1 && s[0] != '0'
    ensures Value(s) >= 1
    decreases |s|
  {
    if |s| > 1 {
      ValuePositive(s[..|s| - 1]);
    }
  }

  /** Printing then parsing gives the number back. */
  lemma ParseNatToString(n: nat)
    ensures ParseNat(NatToString(n)) == Some(n)
  {
    ValueOfNatToString(n);
  }

  /** A string that parses is exactly the printed form of its value. */
  lemma {:induction false} NatToStringOfParse(s: string, n: nat)
    requires ParseNat(s) == Some(n)
    ensures NatToString(n) == s
    decreases |s|
  {
    if |s| > 1 {
      var p := s[..|s| - 1];
      ValuePositive(p);
      NatToStringOfParse(p, Value(p));
      assert n / 10 == Value(p) && n % 10 == DigitValue(s[|s| - 1]);
      assert s == p + [s[|s| - 1]];
    }
  }
}

=== FILE: jwt.dfy ===
/**
 * The session token the server signs and verifies with `jsonwebtoken`.
 * The encoding stands in for the JWS compact serialization of RFC 7515:
 * dot-separated fields without spaces, the last one a keyed signature over
 * the others. The payload is the identity plus the `iat` and `exp` claims
 * (sections 4.1.6 and 4.1.4 of RFC 7519), in seconds.
 */
module Jwt {
  import opened Wrappers
  import opened Text
  import opened Decimal
  import opened Records

  /** `expiresIn: "7d"` in seconds. */
  const SevenDays: nat := 7 * 24 * 60 * 60

  datatype Payload = Payload(claims: Identity, iat: nat, exp: nat)

  /** Why `jwt.verify` throws: `JsonWebTokenError` (malformed, bad signature) or `TokenExpiredError`. */
  datatype JwtFailure = Malformed | InvalidSignature | Expired

  /** The five payload fields of a token, in order. */
  function Fields(p: Payload): (r: seq<string>)
    ensures |r| == 5
    ensures forall i :: 0 <= i < 5 ==> '.' !in r[i] && ' ' !in r[i]
  {
    [NatToString(p.claims.id), Escape(p.claims.name), Escape(p.claims.email),
     NatToString(p.iat), NatToString(p.exp)]
  }

  /** The signature over the signed part of a token, keyed by the server secret. */
  function Signature(secret: string, body: string): (r: string)
    ensures '.' !in r && ' ' !in r
  {
    NatToString(Checksum(secret + "." + body))
  }

  /**
   * `jwt.sign(payload, secret)`. A token is never empty and never contains
   * a space, so it survives a `Bearer` header.
   */
  function Sign(secret: string, p: Payload): (r: string)
    ensures r != [] && ' ' !in r
  {
    var f := Fields(p);
    var parts := f + [Signature(secret, Join(f, '.'))];
    assert forall i :: 0 <= i < |parts| ==> ' ' !in parts[i];
    JoinAvoids(parts, '.', ' ');
    Join(parts, '.')
  }

  /** Reads the five payload fields back; fails on anything `Fields` cannot produce. */
  function Decode(f: seq<string>): (r: Option<Payload>)
    requires |f| == 5
  {
    var id, name, email, iat, exp := ParseNat(f[0]), Unescape(f[1]), Unescape(f[2]), ParseNat(f[3]), ParseNat(f[4]);
    if id.Some? && name.Some? && email.Some? && iat.Some? && exp.Some?
    then Some(Payload(Identity(id.value, name.value, email.value), iat.value, exp.value))
    else None
  }

  /**
   * `jwt.verify(token, secret)` at time `now`: the signature must match the
   * signed part, the payload must decode, and `now` must be before `exp`.
   */
  function Verify(secret: string, token: string, now: nat): (r: Result<Payload, JwtFailure>)
    ensures r.Success? ==> now < r.value.exp
  {
    var f := Split(token, '.');
    if |f| != 6 then Failure(Malformed)
    else if f[5] != Signature(secret, Join(f[..5], '.')) then Failure(InvalidSignature)
    else match Decode(f[..5])
      case None => Failure(Malformed)
      case Some(p) => if now < p.exp then Success(p) else Failure(Expired)
  }

  lemma DecodeFields(p: Payload)
    ensures Decode(Fields(p)) == Some(p)
  {
    ParseNatToString(p.claims.id);
    ParseNatToString(p.iat);
    ParseNatToString(p.exp);
    UnescapeEscape(p.claims.name);
    UnescapeEscape(p.claims.email);
  }

  lemma FieldsDecode(f: seq<string>, p: Payload)
    requires |f| == 5 && Decode(f) == Some(p)
    ensures Fields(p) == f
  {
    NatToStringOfParse(f[0], p.claims.id);
    NatToStringOfParse(f[3], p.iat);
    NatToStringOfParse(f[4], p.exp);
    EscapeUnescape(f[1], p.claims.name);
    EscapeUnescape(f[2], p.claims.email);
  }

  /** The six fields of a signed token are its five payload fields and the signature. */
  lemma SplitSigned(secret: string, p: Payload)
    ensures Split(Sign(secret, p), '.') == Fields(p) + [Signature(secret, Join(Fields(p), '.'))]
  {
    var f := Fields(p);
    var parts := f + [Signature(secret, Join(f, '.'))];
    assert forall i :: 0 <= i < |parts| ==> '.' !in parts[i] by {
      forall i | 0 <= i < |parts| ensures '.' !in parts[i] {
        if i < 5 { assert parts[i] == f[i]; }
      }
    }
    SplitJoin(parts, '.');
  }

  /** A token the server signed verifies, with its own payload, exactly while `now < exp`. */
  lemma VerifySign(secret: string, p: Payload, now: nat)
    ensures Verify(secret, Sign(secret, p), now)
         == if now < p.exp then Success(p) else Failure(Expired)
  {
    var f := Fields(p);
    SplitSigned(secret, p);
    assert (f + [Signature(secret, Join(f, '.'))])[..5] == f;
    DecodeFields(p);
  }

  /** Every token that verifies is exactly the token the server signs for the payload it yields. */
  lemma VerifiedIsSigned(secret: string, token: string, now: nat)
    requires Verify(secret, token, now).Success?
    ensures Sign(secret, Verify(secret, token, now).value) == token
  {
    var f := Split(token, '.');
    var p := Verify(secret, token, now).value;
    FieldsDecode(f[..5], p);
    assert f == f[..5] + [f[5]];
    JoinSplit(token, '.');
  }
}

=== FILE: property_router.dfy ===
/**
 * `propertyRouter`: the `create` mutation and the `getUserProperties` query.
 * Both take the session token from the `Authorization` header and trust only
 * the identity inside a verified token.
 */
module PropertyRouter {
  import opened Wrappers
  import opened Text
  import opened Records
  import opened Store
  import opened Trpc
  import opened Jwt

  datatype CreateInput = CreateInput(name: string, location: string, units: int, additionalInfo: Option<string>)

  datatype CreateOk = CreateOk(message: string, property: Property)

  const NoToken: TrpcError := TrpcError(Unauthorized, Plain("No token provided."))

  const InvalidToken: TrpcError := TrpcError(Unauthorized, Plain("Invalid token."))

  const DuplicateLocation: TrpcError :=
    TrpcError(Conflict, Issues([Issue(["property"], "A property with the same location already exists.")]))

  const CreatedMessage: string := "Property created successfully!"

  /**
   * `authorization?.split(" ")[1]` followed by the `!token` test: the second
   * space-separated field of the header, if there is one and it is not empty.
   * The first field (the scheme word) is not looked at.
   */
  function BearerToken(authorization: Option<string>): (r: Option<string>)
    ensures r.Some? ==> r.value != [] && ' ' !in r.value
  {
    match authorization
    case None => None
    case Some(header) =>
      var fields := Split(header, ' ');
      if |fields| >= 2 && fields[1] != [] then Some(fields[1]) else None
  }

  /** The client sends `Bearer <token>`; any scheme word gives the token back. */
  lemma BearerRoundTrip(scheme: string, token: string)
    requires ' ' !in scheme && ' ' !in token && token != []
    ensures BearerToken(Some(scheme + " " + token)) == Some(token)
  {
    SplitWithout(token, ' ');
    SplitAfter(scheme, token, ' ');
  }

  /** A header without a space, or with nothing after its first space, carries no token. */
  lemma BearerMissing(header: string)
    requires ' ' !in header || (header[|header| - 1] == ' ' && ' ' !in header[..|header| - 1])
    ensures BearerToken(Some(header)) == None
  {
    if ' ' !in header {
      SplitWithout(header, ' ');
    } else {
      var scheme := header[..|header| - 1];
      assert header == scheme + [' '] + [];
      SplitAfter(scheme, [], ' ');
    }
  }

  /** The issues zod reports for a `create` input. */
  function CreateIssues(input: CreateInput): (r: seq<Issue>)
    ensures r == [] <==> input.name != [] && input.location != [] && input.units >= 1
    ensures forall i :: 0 <= i < |r| ==> r[i].path in [["name"], ["location"], ["units"]]
  {
    (if |input.name| < 1 then [Issue(["name"], "Property name is required.")] else [])
    + (if |input.location| < 1 then [Issue(["location"], "Location is required.")] else [])
    + (if input.units < 1 then [Issue(["units"], "At least one unit is required.")] else [])
  }

  /** The row `create` inserts: the client's fields, owned by the verified token's user. */
  function NewProperty(id: nat, input: CreateInput, owner: nat): Property
  {
    Property(id, input.name, input.location, input.units, input.additionalInfo, owner)
  }

  /**
   * `create`. The duplicate-location `CONFLICT` is thrown inside the `try`,
   * so the `catch` turns it, like every failure of `jwt.verify`, into
   * `UNAUTHORIZED` carrying the caught value as its message.
   */
  method Create(db: Db, secret: string, authorization: Option<string>, input: CreateInput, now: nat)
    returns (r: Result<CreateOk, TrpcError>)
    requires db.Valid()
    modifies db
    ensures db.Valid()
    ensures db.users == old(db.users) && db.nextUserId == old(db.nextUserId)
    ensures r.Failure? ==> db.properties == old(db.properties) && db.nextPropertyId == old(db.nextPropertyId)
    ensures r.Failure? ==> r.error.code != Conflict
    ensures CreateIssues(input) != [] ==> r == Failure(TrpcError(BadRequest, Issues(CreateIssues(input))))
    ensures CreateIssues(input) == [] && BearerToken(authorization).None? ==> r == Failure(NoToken)
    ensures CreateIssues(input) == [] && BearerToken(authorization).Some? ==>
      var decoded := Verify(secret, BearerToken(authorization).value, now);
      (decoded.Failure? ==> r == Failure(TrpcError(Unauthorized, Wrapped(JwtError(decoded.error)))))
      && (decoded.Success? && LocationTaken(old(db.properties), decoded.value.claims.id, input.location) ==>
            r == Failure(TrpcError(Unauthorized, Wrapped(Raised(DuplicateLocation)))))
      && (decoded.Success? && !LocationTaken(old(db.properties), decoded.value.claims.id, input.location) ==>
            var p := NewProperty(old(db.nextPropertyId), input, decoded.value.claims.id);
            r == Success(CreateOk(CreatedMessage, p))
            && db.properties == old(db.properties) + [p]
            && db.nextPropertyId == old(db.nextPropertyId) + 1)
    ensures OwnerLocationsUnique(old(db.properties)) ==> OwnerLocationsUnique(db.properties)
  {
    var issues := CreateIssues(input);
    if issues != [] {
      return Failure(TrpcError(BadRequest, Issues(issues)));
    }
    var token := BearerToken(authorization);
    if token.None? {
      return Failure(NoToken);
    }
    // try { ... }
    var attempt: Result<Property, Thrown>;
    var decoded := Verify(secret, token.value, now);
    if decoded.Failure? {
      attempt := Failure(JwtError(decoded.error));
    } else {
      var userId := decoded.value.claims.id;
      var existingProperty := FindProperty(db.properties, userId, input.location);
      if existingProperty.Some? {
        attempt := Failure(Raised(DuplicateLocation));
      } else {
        var newProperty := db.CreateProperty(input.name, input.location, input.units, input.additionalInfo, userId);
        attempt := Success(newProperty);
      }
    }
    // catch (err) { throw new TRPCError({ code: "UNAUTHORIZED", message: err }) }
    match attempt
    case Failure(err) => r := Failure(TrpcError(Unauthorized, Wrapped(err)));
    case Success(p) => r := Success(CreateOk(CreatedMessage, p));
  }

  /** `getUserProperties`: the verified owner's rows; every failure after the header check reads "Invalid token.". */
  function GetUserProperties(properties: seq<Property>, secret: string, authorization: Option<string>, now: nat)
    : (r: Result<seq<Property>, TrpcError>)
    ensures BearerToken(authorization).None? ==> r == Failure(NoToken)
    ensures BearerToken(authorization).Some? && Verify(secret, BearerToken(authorization).value, now).Failure? ==>
      r == Failure(InvalidToken)
    ensures r.Failure? <==> BearerToken(authorization).None? || Verify(secret, BearerToken(authorization).value, now).Failure?
    ensures r.Success? ==>
      var owner := Verify(secret, BearerToken(authorization).value, now).value.claims.id;
      forall p :: p in r.value <==> p in properties && p.userId == owner
  {
    match BearerToken(authorization)
    case None => Failure(NoToken)
    case Some(token) =>
      match Verify(secret, token, now)
      case Failure(_) => Failure(InvalidToken)
      case Success(decoded) => Success(PropertiesOf(properties, decoded.claims.id))
  }

  /** Appending a property at a location its owner does not use keeps owner-location pairs unique. */
  lemma AppendKeepsUnique(properties: seq<Property>, p: Property)
    requires OwnerLocationsUnique(properties) && !LocationTaken(properties, p.userId, p.location)
    ensures OwnerLocationsUnique(properties + [p])
  {
  }

  /** The same location stays open to a different owner. */
  lemma OtherOwnerSameLocation(properties: seq<Property>, p: Property, q: Property)
    requires OwnerLocationsUnique(properties + [p]) && q.location == p.location && q.userId != p.userId
    requires !LocationTaken(properties, q.userId, q.location)
    ensures OwnerLocationsUnique(properties + [p] + [q])
  {
  }
}

=== FILE: records.dfy ===
/** The two tables of the store and the identity a session token carries. */
module Records {
  import opened Wrappers

  /** A row of the `user` table; `password` holds the bcrypt hash. */
  datatype User = User(id: nat, name: string, email: string, password: string)

  /** The public part of a user: what `signUp` returns and what a session token carries. */
  datatype Identity = Identity(id: nat, name: string, email: string)

  /** A row of the `property` table, owned by the user `userId`. */
  datatype Property = Property(
    id: nat,
    name: string,
    location: string,
    units: int,
    additionalInfo: Option<string>,
    userId: nat)

  /** The public fields of a stored user. */
  function IdentityOf(u: User): Identity
  {
    Identity(u.id, u.name, u.email)
  }
}

=== FILE: session.dfy ===
/**
 * The procedures used together, as the client uses them: the token from
 * `login` is sent back as `Authorization: Bearer <token>`.
 */
module Session {
  import opened Wrappers
  import opened Records
  import opened Store
  import opened Trpc
  import opened Jwt
  import opened AuthRouter
  import opened PropertyRouter
  import Bcrypt
  import Zod

  /** The header the client builds from a stored token. */
  function BearerHeader(token: string): Option<string>
  {
    Some("Bearer " + token)
  }

  /**
   * The token from a successful `login`, sent back in a `Bearer` header,
   * lists exactly the user's own properties for seven days and is refused
   * with "Invalid token." from then on.
   */
  lemma LoginThenList(users: seq<User>, properties: seq<Property>, secret: string, input: LoginInput, now: nat, t: nat)
    requires Login(users, secret, input, now).Success?
    ensures var ok := Login(users, secret, input, now).value;
      GetUserProperties(properties, secret, BearerHeader(ok.token), t)
      == if t < now + SevenDays then Success(PropertiesOf(properties, ok.user.id)) else Failure(InvalidToken)
  {
    var ok := Login(users, secret, input, now).value;
    LoginToken(users, secret, input, now);
    BearerRoundTrip("Bearer", ok.token);
    assert "Bearer " + ok.token == "Bearer" + " " + ok.token;
  }

  lemma ExampleDomain()
    ensures Zod.IsDomain("x.com")
  {
    assert "x.com" == "x" + ['.'] + "com";
    Text.SplitAfter("x", "com", '.');
    Text.SplitWithout("com", '.');
    assert Text.Split("x.com", '.') == ["x", "com"];
    assert Zod.IsTopLabel("com");
    assert Zod.IsLabel("x");
  }

  /** The two addresses of the walkthrough pass the email check. */
  lemma ExampleEmail(local: char)
    requires 'a' <= local <= 'z'
    ensures Zod.IsEmail([local] + "@x.com")
  {
    var s := [local] + "@x.com";
    assert s == [local] + ['@'] + "x.com";
    Text.SplitAfter([local], "x.com", '@');
    Text.SplitWithout("x.com", '@');
    assert Text.Split(s, '@') == [[local], "x.com"];
    ExampleDomain();
    assert Zod.IsLocalPart([local]);
    assert !Zod.HasDoubleDot(s) by {
      forall i | 0 <= i < |s| - 1 ensures !(s[i] == '.' && s[i + 1] == '.') {
        assert s[i + 1] != '.' || s[i] != '.';
      }
    }
  }

  /** The header built from a token the server signed carries that token. */
  lemma HeaderCarries(token: string)
    requires token != [] && ' ' !in token
    ensures BearerToken(BearerHeader(token)) == Some(token)
  {
    BearerRoundTrip("Bearer", token);
    assert "Bearer " + token == "Bearer" + " " + token;
  }

  /** `signUp` with a fresh email followed by `login` with the same credentials. */
  method Enrol(db: Db, input: SignUpInput, salt: Bcrypt.Salt, secret: string, now: nat)
    returns (signed: Result<Identity, TrpcError>, session: Result<LoginOk, TrpcError>)
    requires db.Valid() && SignUpIssues(input) == [] && !EmailTaken(db.users, input.email)
    modifies db
    ensures db.Valid() && db.nextUserId == old(db.nextUserId) + 1
    ensures db.properties == old(db.properties) && db.nextPropertyId == old(db.nextPropertyId)
    ensures db.users == old(db.users) + [NewUser(old(db.nextUserId), input, salt)]
    ensures signed == Success(Identity(old(db.nextUserId), input.name, input.email))
    ensures session.Success? && session.value.user == signed.value
    ensures BearerToken(BearerHeader(session.value.token)) == Some(session.value.token)
    ensures Verify(secret, session.value.token, now) == Success(Payload(signed.value, now, now + SevenDays))
  {
    var before := db.users;
    signed := SignUp(db, input, salt);
    SignUpThenLogin(before, signed.value.id, input, salt, secret, now);
    session := AuthRouter.Login(db.users, secret, LoginInput(input.email, input.password), now);
    LoginToken(db.users, secret, LoginInput(input.email, input.password), now);
    HeaderCarries(session.value.token);
  }

  /** The two sign-up forms of the walkthrough pass validation. */
  lemma ExampleSignUps()
    ensures SignUpIssues(SignUpInput("Alice", "a@x.com", "password1")) == []
    ensures SignUpIssues(SignUpInput("Bob", "b@x.com", "password2")) == []
  {
    ExampleEmail('a');
    ExampleEmail('b');
    assert ['a'] + "@x.com" == "a@x.com" && ['b'] + "@x.com" == "b@x.com";
  }

  /** `create` by the holder of a valid token, at a location that owner does not use yet. */
  method CreateFresh(db: Db, secret: string, token: string, owner: Identity, input: CreateInput, now: nat)
    returns (r: Result<CreateOk, TrpcError>)
    requires db.Valid() && CreateIssues(input) == []
    requires BearerToken(BearerHeader(token)) == Some(token)
    requires Verify(secret, token, now).Success? && Verify(secret, token, now).value.claims == owner
    requires !LocationTaken(db.properties, owner.id, input.location)
    modifies db
    ensures db.Valid() && db.users == old(db.users) && db.nextUserId == old(db.nextUserId)
    ensures r == Success(CreateOk(CreatedMessage, NewProperty(old(db.nextPropertyId), input, owner.id)))
    ensures db.properties == old(db.properties) + [r.value.property] && db.nextPropertyId == old(db.nextPropertyId) + 1
  {
    r := Create(db, secret, BearerHeader(token), input, now);
  }

  /** Two `create` calls for the same location by the holder of a valid token, on an empty property table. */
  method SameLocationTwice(db: Db, secret: string, token: string, owner: Identity, now: nat)
    returns (first: Result<CreateOk, TrpcError>, again: Result<CreateOk, TrpcError>)
    requires db.Valid() && db.properties == [] && db.nextPropertyId == 1
    requires BearerToken(BearerHeader(token)) == Some(token)
    requires Verify(secret, token, now).Success? && Verify(secret, token, now).value.claims == owner
    modifies db
    ensures db.Valid() && db.users == old(db.users) && db.nextUserId == old(db.nextUserId)
    ensures db.properties == [Property(1, "Flat", "Loc1", 2, None, owner.id)] && db.nextPropertyId == 2
    ensures first == Success(CreateOk(CreatedMessage, Property(1, "Flat", "Loc1", 2, None, owner.id)))
    ensures again == Failure(TrpcError(Unauthorized, Wrapped(Raised(DuplicateLocation))))
  {
    var flat := CreateInput("Flat", "Loc1", 2, None);
    first := CreateFresh(db, secret, token, owner, flat, now);
    assert LocationTaken(db.properties, owner.id, "Loc1") by {
      assert db.properties[0].userId == owner.id && db.properties[0].location == "Loc1";
    }
    again := Create(db, secret, BearerHeader(token), flat, now);
  }

  lemma BobEmailFree(users: seq<User>)
    requires |users| == 1 && users[0].email == "a@x.com"
    ensures !EmailTaken(users, "b@x.com")
  {
    assert "a@x.com"[0] != "b@x.com"[0];
  }

  /** Bob's part of the walkthrough: a second user takes the location Alice already uses. */
  method BobHouse(db: Db, secret: string, now: nat, salt: Bcrypt.Salt)
    returns (bobLogin: Result<LoginOk, TrpcError>, bobFirst: Result<CreateOk, TrpcError>)
    requires db.Valid() && |db.users| == 1 && db.users[0].email == "a@x.com" && db.nextUserId == 2
    requires db.properties == [Property(1, "Flat", "Loc1", 2, None, 1)] && db.nextPropertyId == 2
    modifies db
    ensures bobLogin.Success? && bobLogin.value.user == Identity(2, "Bob", "b@x.com")
    ensures bobFirst == Success(CreateOk(CreatedMessage, Property(2, "House", "Loc1", 3, None, 2)))
  {
    ExampleSignUps();
    BobEmailFree(db.users);
    var bob: Result<Identity, TrpcError>;
    bob, bobLogin := Enrol(db, SignUpInput("Bob", "b@x.com", "password2"), salt, secret, now);
    assert !LocationTaken(db.properties, 2, "Loc1") by {
      assert |db.properties| == 1 && db.properties[0].userId == 1;
    }
    bobFirst := CreateFresh(db, secret, bobLogin.value.token, bob.value, CreateInput("House", "Loc1", 3, None), now);
  }

  /**
   * A worked example of the whole API: Alice signs up and logs in, creates
   * "Flat" at "Loc1", fails to create a second property there (seen as
   * UNAUTHORIZED, not CONFLICT), and Bob can still use "Loc1".
   */
  method Walkthrough(secret: string, now: nat, aliceSalt: Bcrypt.Salt, bobSalt: Bcrypt.Salt)
    returns (alice: Result<Identity, TrpcError>, aliceLogin: Result<LoginOk, TrpcError>,
             first: Result<CreateOk, TrpcError>, again: Result<CreateOk, TrpcError>,
             bobLogin: Result<LoginOk, TrpcError>, bobFirst: Result<CreateOk, TrpcError>)
    ensures alice == Success(Identity(1, "Alice", "a@x.com"))
    ensures aliceLogin.Success? && aliceLogin.value.user == Identity(1, "Alice", "a@x.com")
    ensures first == Success(CreateOk(CreatedMessage, Property(1, "Flat", "Loc1", 2, None, 1)))
    ensures again == Failure(TrpcError(Unauthorized, Wrapped(Raised(DuplicateLocation))))
    ensures bobLogin.Success? && bobLogin.value.user == Identity(2, "Bob", "b@x.com")
    ensures bobFirst == Success(CreateOk(CreatedMessage, Property(2, "House", "Loc1", 3, None, 2)))
  {
    ExampleSignUps();
    var db := new Db();
    alice, aliceLogin := Enrol(db, SignUpInput("Alice", "a@x.com", "password1"), aliceSalt, secret, now);
    first, again := SameLocationTwice(db, secret, aliceLogin.value.token, alice.value, now);

    assert db.users[0] == NewUser(1, SignUpInput("Alice", "a@x.com", "password1"), aliceSalt);
    bobLogin, bobFirst := BobHouse(db, secret, now, bobSalt);
  }
}

=== FILE: store.dfy ===
/**
 * The relational store the routers reach through Prisma, as two in-memory
 * tables with autoincrement ids. Lookups are functions over a table;
 * inserts are methods of `Db`.
 */
module Store {
  import opened Wrappers
  import opened Records
  import Bcrypt

  predicate EmailTaken(users: seq<User>, email: string)
  {
    exists i :: 0 <= i < |users| && users[i].email == email
  }

  /** `prisma.user.findUnique({ where: { email } })`: the first user with that email. */
  function FindUserByEmail(users: seq<User>, email: string): (r: Option<User>)
    ensures r.None? <==> !EmailTaken(users, email)
    ensures r.Some? ==> r.value in users && r.value.email == email
    decreases |users|
  {
    if users == [] then None
    else if users[0].email == email then Some(users[0])
    else FindUserByEmail(users[1..], email)
  }

  predicate LocationTaken(properties: seq<Property>, owner: nat, location: string)
  {
    exists i :: 0 <= i < |properties| && properties[i].userId == owner && properties[i].location == location
  }

  /** `prisma.property.findFirst({ where: { location, userId } })`. */
  function FindProperty(properties: seq<Property>, owner: nat, location: string): (r: Option<Property>)
    ensures r.None? <==> !LocationTaken(properties, owner, location)
    ensures r.Some? ==> r.value in properties && r.value.userId == owner && r.value.location == location
    decreases |properties|
  {
    if properties == [] then None
    else if properties[0].userId == owner && properties[0].location == location then Some(properties[0])
    else FindProperty(properties[1..], owner, location)
  }

  /** `prisma.property.findMany({ where: { userId } })`: the owner's rows, in table order. */
  function PropertiesOf(properties: seq<Property>, owner: nat): (r: seq<Property>)
    ensures forall p :: p in r <==> p in properties && p.userId == owner
    ensures |r| <= |properties|
    decreases |properties|
  {
    if properties == [] then []
    else if properties[0].userId == owner then [properties[0]] + PropertiesOf(properties[1..], owner)
    else PropertiesOf(properties[1..], owner)
  }

  /**
   * The unique constraint on `email`: `findUnique` may only filter on a
   * unique field, so the schema declares one.
   */
  predicate EmailsUnique(users: seq<User>)
  {
    forall i, j :: 0 <= i < j < |users| ==> users[i].email != users[j].email
  }

  /** Every stored password is a bcrypt hash string. */
  predicate PasswordsHashed(users: seq<User>)
  {
    forall i :: 0 <= i < |users| ==> Bcrypt.IsHash(users[i].password)
  }

  /** No owner has two properties at one location. */
  predicate OwnerLocationsUnique(properties: seq<Property>)
  {
    forall i, j :: 0 <= i < j < |properties| ==>
      properties[i].userId != properties[j].userId || properties[i].location != properties[j].location
  }

  /** Autoincrement ids: strictly increasing in insertion order, all below the next id. */
  predicate UserIdsBelow(users: seq<User>, next: nat)
  {
    (forall i :: 0 <= i < |users| ==> users[i].id < next)
    && (forall i, j :: 0 <= i < j < |users| ==> users[i].id < users[j].id)
  }

  predicate PropertyIdsBelow(properties: seq<Property>, next: nat)
  {
    (forall i :: 0 <= i < |properties| ==> properties[i].id < next)
    && (forall i, j :: 0 <= i < j < |properties| ==> properties[i].id < properties[j].id)
  }

  /** Under the email constraint, the lookup finds each stored user by its email. */
  lemma FindUserUnique(users: seq<User>, i: nat)
    requires EmailsUnique(users) && i < |users|
    ensures FindUserByEmail(users, users[i].email) == Some(users[i])
  {
  }

  /** A user appended under a fresh email is the one the lookup finds. */
  lemma {:induction false} FindUserAppended(users: seq<User>, u: User)
    requires !EmailTaken(users, u.email)
    ensures FindUserByEmail(users + [u], u.email) == Some(u)
    decreases |users|
  {
    if users != [] {
      assert (users + [u])[1..] == users[1..] + [u];
      assert !EmailTaken(users[1..], u.email) by {
        forall k | 0 <= k < |users| - 1 ensures users[1..][k].email != u.email {
          assert users[1..][k] == users[k + 1];
        }
      }
      FindUserAppended(users[1..], u);
    }
  }

  /** The database connection: the `user` and `property` tables and their id counters. */
  class Db {
    var users: seq<User>
    var properties: seq<Property>
    var nextUserId: nat
    var nextPropertyId: nat

    /** What the store itself enforces: autoincrement ids and the unique constraint on `email`. */
    ghost predicate Valid()
      reads this
    {
      UserIdsBelow(users, nextUserId) && PropertyIdsBelow(properties, nextPropertyId) && EmailsUnique(users)
    }

    /** An empty database; autoincrement starts at 1. */
    constructor ()
      ensures Valid()
      ensures users == [] && properties == [] && nextUserId == 1 && nextPropertyId == 1
    {
      users, properties := [], [];
      nextUserId, nextPropertyId := 1, 1;
    }

    /**
     * `prisma.user.create({ data: { name, email, password } })`. The store
     * refuses an email already present; `signUp` looks it up first.
     */
    method CreateUser(name: string, email: string, password: string) returns (u: User)
      requires Valid() && !EmailTaken(users, email)
      modifies this
      ensures Valid()
      ensures u == User(old(nextUserId), name, email, password)
      ensures users == old(users) + [u] && nextUserId == old(nextUserId) + 1
      ensures properties == old(properties) && nextPropertyId == old(nextPropertyId)
    {
      u := User(nextUserId, name, email, password);
      users := users + [u];
      nextUserId := nextUserId + 1;
    }

    /** `prisma.property.create({ data: { name, location, units, additionalInfo, userId } })`. */
    method CreateProperty(name: string, location: string, units: int, additionalInfo: Option<string>, userId: nat)
      returns (p: Property)
      requires Valid()
      modifies this
      ensures Valid()
      ensures p == Property(old(nextPropertyId), name, location, units, additionalInfo, userId)
      ensures properties == old(properties) + [p] && nextPropertyId == old(nextPropertyId) + 1
      ensures users == old(users) && nextUserId == old(nextUserId)
    {
      p := Property(nextPropertyId, name, location, units, additionalInfo, userId);
      properties := properties + [p];
      nextPropertyId := nextPropertyId + 1;
    }
  }
}

=== FILE: text.dfy ===
/**
 * String helpers: JavaScript's `String.prototype.split` with a one-character
 * separator, its inverse `Join`, and a reversible escaping that keeps a
 * string free of the separators used by the token layout.
 */
module Text {
  import opened Wrappers

  /** `s.split(sep)` in JavaScript: the pieces between separators, empty pieces kept. */
  function Split(s: string, sep: char): (r: seq<string>)
    ensures |r| >= 1
    ensures forall i :: 0 <= i < |r| ==> sep !in r[i]
    decreases |s|
  {
    if s == [] then [[]]
    else
      var rest := Split(s[1..], sep);
      if s[0] == sep then [[]] + rest
      else [[s[0]] + rest[0]] + rest[1..]
  }

  /** `parts.join(sep)` in JavaScript. */
  function Join(parts: seq<string>, sep: char): string
    requires |parts| >= 1
    decreases |parts|
  {
    if |parts| == 1 then parts[0] else parts[0] + [sep] + Join(parts[1..], sep)
  }

  lemma {:induction false} SplitWithout(a: string, sep: char)
    requires sep !in a
    ensures Split(a, sep) == [a]
    decreases |a|
  {
    if a != [] {
      SplitWithout(a[1..], sep);
      assert [a[0]] + a[1..] == a;
    }
  }

  lemma {:induction false} SplitAfter(a: string, b: string, sep: char)
    requires sep !in a
    ensures Split(a + [sep] + b, sep) == [a] + Split(b, sep)
    decreases |a|
  {
    var s := a + [sep] + b;
    if a == [] {
      assert s[0] == sep && s[1..] == b;
    } else {
      assert s[0] == a[0] && s[1..] == a[1..] + [sep] + b;
      SplitAfter(a[1..], b, sep);
      assert [a[0]] + a[1..] == a;
    }
  }

  /** Splitting a join of separator-free pieces gives the pieces back. */
  lemma {:induction false} SplitJoin(parts: seq<string>, sep: char)
    requires |parts| >= 1
    requires forall i :: 0 <= i < |parts| ==> sep !in parts[i]
    ensures Split(Join(parts, sep), sep) == parts
    decreases |parts|
  {
    if |parts| == 1 {
      SplitWithout(parts[0], sep);
    } else {
      SplitJoin(parts[1..], sep);
      SplitAfter(parts[0], Join(parts[1..], sep), sep);
      assert [parts[0]] + parts[1..] == parts;
    }
  }

  /** Joining the pieces of a split gives the string back. */
  lemma {:induction false} JoinSplit(s: string, sep: char)
    ensures Join(Split(s, sep), sep) == s
    decreases |s|
  {
    if s != [] {
      var rest := Split(s[1..], sep);
      JoinSplit(s[1..], sep);
      if s[0] == sep {
        assert ([[]] + rest)[1..] == rest;
      } else {
        var r := [[s[0]] + rest[0]] + rest[1..];
        if |rest| > 1 {
          assert r[1..] == rest[1..];
          assert Join(rest, sep) == rest[0] + [sep] + Join(rest[1..], sep);
        }
      }
    }
  }

  /** A character that is in no piece and is not the separator is not in the join. */
  lemma {:induction false} JoinAvoids(parts: seq<string>, sep: char, c: char)
    requires |parts| >= 1 && c != sep
    requires forall i :: 0 <= i < |parts| ==> c !in parts[i]
    ensures c !in Join(parts, sep)
    decreases |parts|
  {
    if |parts| > 1 {
      JoinAvoids(parts[1..], sep, c);
    }
  }

  /** How one character is written by `Escape`. */
  function EscapeChar(c: char): (r: string)
    ensures 1 <= |r| <= 2 && '.' !in r && ' ' !in r
  {
    if c == '\\' then "\\\\"
    else if c == '.' then "\\d"
    else if c == ' ' then "\\s"
    else [c]
  }

  /** The character an escape sequence `\x` stands for, if `x` is a valid escape letter. */
  function Unescaped(x: char): Option<char>
  {
    if x == '\\' then Some('\\')
    else if x == 'd' then Some('.')
    else if x == 's' then Some(' ')
    else None
  }

  /** Rewrites `\`, `.` and space as two-character escapes, so the result contains no dot and no space. */
  function Escape(s: string): (r: string)
    ensures '.' !in r && ' ' !in r
    decreases |s|
  {
    if s == [] then [] else EscapeChar(s[0]) + Escape(s[1..])
  }

  /** Inverse of `Escape`; fails on a raw dot or space, or on an unknown escape. */
  function Unescape(t: string): Option<string>
    decreases |t|
  {
    if t == [] then Some([])
    else if t[0] == '\\' then
      if |t| < 2 || Unescaped(t[1]).None? then None
      else match Unescape(t[2..])
        case None => None
        case Some(s) => Some([Unescaped(t[1]).value] + s)
    else if t[0] == '.' || t[0] == ' ' then None
    else match Unescape(t[1..])
      case None => None
      case Some(s) => Some([t[0]] + s)
  }

  lemma {:induction false} UnescapeEscape(s: string)
    ensures Unescape(Escape(s)) == Some(s)
    decreases |s|
  {
    if s != [] {
      UnescapeEscape(s[1..]);
      var e, rest := EscapeChar(s[0]), Escape(s[1..]);
      var t := e + rest;
      if |e| == 2 {
        assert t[0] == '\\' && t[1] == e[1] && t[2..] == rest;
      } else {
        assert t[0] == s[0] && t[1..] == rest;
      }
      assert [s[0]] + s[1..] == s;
    }
  }

  lemma {:induction false} EscapeUnescape(t: string, s: string)
    requires Unescape(t) == Some(s)
    ensures Escape(s) == t
    decreases |t|
  {
    if t != [] {
      if t[0] == '\\' {
        EscapeUnescape(t[2..], s[1..]);
        assert t == t[..2] + t[2..];
      } else {
        EscapeUnescape(t[1..], s[1..]);
        assert t == [t[0]] + t[1..];
      }
    }
  }

  /**
   * A keyed 32-bit checksum: the stand-in for the cryptographic digests the
   * server's libraries compute (bcrypt's Blowfish rounds, HMAC-SHA-256).
   */
  function Checksum(s: string): (r: nat)
    ensures r < 4294967291
    decreases |s|
  {
    if s == [] then 5381
    else (Checksum(s[..|s| - 1]) * 33 + s[|s| - 1] as int) % 4294967291
  }
}

=== FILE: trpc.dfy ===
/** The error values tRPC procedures throw and the caller receives. */
module Trpc {
  import Jwt

  datatype Code = BadRequest | Unauthorized | Conflict

  /** One entry of the JSON issue list carried in a message: a field path and a text. */
  datatype Issue = Issue(path: seq<string>, message: string)

  /**
   * The message of an error: a JSON list of issues, a plain text, or (when a
   * `catch` passes the caught value on as `message`) the value that was caught.
   */
  datatype Message = Issues(issues: seq<Issue>) | Plain(text: string) | Wrapped(cause: Thrown)

  /** A value a `catch` can receive: an error from `jwt.verify`, or a `TRPCError` thrown earlier. */
  datatype Thrown = JwtError(failure: Jwt.JwtFailure) | Raised(error: TrpcError)

  datatype TrpcError = TrpcError(code: Code, message: Message)
}

=== FILE: wrappers.dfy ===
/** Option and Result datatypes shared by the whole model. */
module Wrappers {
  datatype Option<+T> = None | Some(value: T)

  datatype Result<+T, +E> = Success(value: T) | Failure(error: E)
}

=== FILE: zod.dfy ===
/**
 * The `z.string().email()` check. Written after the pattern zod 3.23 and
 * later (and zod 4) use: a local part of letters, digits and `_'+-.` that neither starts with a dot
 * nor ends with `'` or `.`, one `@`, then two or more dot-separated labels of
 * which the last is at least two letters; no `..` anywhere; ASCII letters in
 * either case.
 */
module Zod {
  import opened Text

  predicate IsLetter(c: char) { 'a' <= c <= 'z' || 'A' <= c <= 'Z' }

  predicate IsAlnum(c: char) { IsLetter(c) || '0' <= c <= '9' }

  predicate IsLocalChar(c: char) { IsAlnum(c) || c == '_' || c == '\'' || c == '+' || c == '-' || c == '.' }

  predicate IsLocalLast(c: char) { IsAlnum(c) || c == '_' || c == '+' || c == '-' }

  predicate IsLocalPart(l: string)
  {
    |l| >= 1 && l[0] != '.' && IsLocalLast(l[|l| - 1])
    && forall i :: 0 <= i < |l| ==> IsLocalChar(l[i])
  }

  /** A domain label other than the last: starts with a letter or digit, then letters, digits and `-`. */
  predicate IsLabel(s: string)
  {
    |s| >= 1 && IsAlnum(s[0]) && forall i :: 1 <= i < |s| ==> IsAlnum(s[i]) || s[i] == '-'
  }

  /** The last domain label: two or more letters. */
  predicate IsTopLabel(s: string)
  {
    |s| >= 2 && forall i :: 0 <= i < |s| ==> IsLetter(s[i])
  }

  predicate IsDomain(d: string)
  {
    var labels := Split(d, '.');
    |labels| >= 2 && IsTopLabel(labels[|labels| - 1])
    && forall i :: 0 <= i < |labels| - 1 ==> IsLabel(labels[i])
  }

  predicate HasDoubleDot(s: string)
  {
    exists i :: 0 <= i < |s| - 1 && s[i] == '.' && s[i + 1] == '.'
  }

  /** Every label of an accepted domain is free of spaces, and so is the domain. */
  lemma DomainAvoidsSpace(d: string)
    requires IsDomain(d)
    ensures ' ' !in d
  {
    var labels := Split(d, '.');
    JoinSplit(d, '.');
    forall i | 0 <= i < |labels| ensures ' ' !in labels[i] {
      if i == |labels| - 1 {
        assert IsTopLabel(labels[i]);
      } else {
        assert IsLabel(labels[i]);
      }
    }
    JoinAvoids(labels, '.', ' ');
  }

  /** An accepted address has the shape `local@domain` with exactly one `@` and no space. */
  function IsEmail(s: string): (r: bool)
    ensures r ==> ' ' !in s
    ensures r ==> exists local, domain :: s == local + "@" + domain && '@' !in local && '@' !in domain
  {
    var parts := Split(s, '@');
    if |parts| == 2 && IsLocalPart(parts[0]) && IsDomain(parts[1]) && !HasDoubleDot(s) then
      JoinSplit(s, '@');
      DomainAvoidsSpace(parts[1]);
      assert s == parts[0] + "@" + parts[1];
      assert ' ' !in parts[0];
      true
    else
      false
  }
}
